=== FILE: README.md ===
# Address keys view and vCard property helpers, modelled in Dafny

This project models two pieces of logic from a webmail client.

The first is the contact helpers in `src/helpers/vCardProperties.js`. They pick properties out of a parsed vCard:

- `isEmpty` is the emptiness test.
- `canPushProp` is the group filter.
- `extract` collects the properties of the requested fields, field by field.
- `extractAll` flattens the whole card.
- `makeUniq` removes duplicates, keeping the order and the first property of each key.

The second is the decision logic of the address keys view in `src/app/address/directives/addressKeysView.js`:

- how a click is dispatched through the `ACTIONS` table, and with which address and key;
- what the three markers (obsolete, compromised, valid) send to the signed key list builder and to the key API, and which message they show;
- what `makePrimaryKey` asks of its collaborators;
- which file a public or private key export downloads;
- how the hidden import inputs are filled, and what a change of the file picker sends, shows and resets.

Modules:

- `Common` (`common.dfy`): `Option` and `Min`.
- `VCardProperties` (`vcard_properties.dfy`): the helpers. A card is a `Document`: the `data` map plus the order of `Object.keys`. A field value is `Single(property)` or `Many(properties)`. `orderByPref`, whose definition is not part of this model, is a function parameter. Every lemma that needs it requires it to be a permutation. `extract` is the method `Extract`, a loop that appends to an accumulator. It is proved equal to the function `ExtractSpec`, the left fold over the fields. The lemmas are stated about `ExtractSpec`.
- `AddressKeysView` (`address_keys_view.dfy`): keys, addresses, lookups, `clickDelegate`, markers, `makePrimaryKey`, download and export. The `KEY_FLAGS` values and `KEY_FILE_EXTENSION` are not part of this model, so they are parameters (`KeyFlags`, `extension`). JavaScript's `|` is written out over 32 bits (`BitOr`).
- `KeyImport` (`key_import.dfy`): the three hidden inputs as a class, `ImportKeyForm`. The import and reactivation dialogs assign its fields. `importKeyChange` is the method `Change`.

Quirks of the code that the model keeps:

- An array-valued field counts as empty as soon as one of its elements is empty: `filter(isEmpty).length` is truthy then (`vCardProperties.js:13`).
- The deduplication key is one string, `type + " " + value`, or the bare value when there is no type. An untyped value `"a b"` therefore collides with type `a` and value `b` (`vCardProperties.js:37-41`).
- A failed address or key lookup does not stop a click. The handler is still called, with the falsy value the `&&` chain stopped at (`addressKeysView.js:379-386`).
- Those falsy values differ from one another. `null` (no `data-address-id`) and `undefined` (address not found, or a key index that names no element) cannot be destructured. `false` (index at or past the end) and `""` (empty `data-address-id`) can. `downloadPublic` and `exportKey` destructure both their arguments synchronously; `reactivateKey` destructures only the address and takes the key as it is (`addressKeysView.js:91,113,328`). When a destructured argument is `null` or `undefined`, the call throws a TypeError before `dispatcher.dropdown('close')` runs. The dropdown then stays open. In every other case past the gate it is closed exactly once. A `false` or `undefined` key therefore reaches the reactivation dialog, whose import branch then stores the key ID "undefined" or throws (`PrepareReactivation`).
- The import target written into the hidden address input is the address's email, not its `addressID` (`addressKeysView.js:294`).

Asynchronous chains are modelled as a list of steps cut short at the first rejection. The parameter `resolved` counts how many collaborator calls resolved first.

## Model

| member | source | states |
|---|---|---|
| `VCardProperties.CountEmptyPositive` | src/helpers/vCardProperties.js:13 | the filtered length of an array is positive iff some element is empty |
| `VCardProperties.IsEmpty` | src/helpers/vCardProperties.js:11-21 | a field is empty iff it is missing, is one empty property, or is an array with at least one empty element |
| `VCardProperties.CanPushProp` | src/helpers/vCardProperties.js:23-25 | with no group or `""` asked for every property passes; otherwise exactly the properties whose group is the one asked for |
| `VCardProperties.KeepGroupMembership` | src/helpers/vCardProperties.js:23-25 | a property survives the group filter iff it was in the input and either no group (or "") was asked for or its group equals the one asked for |
| `VCardProperties.KeepGroupWithoutGroup` | src/helpers/vCardProperties.js:24 | with a falsy group the filter keeps everything, in order |
| `VCardProperties.PushField` | src/helpers/vCardProperties.js:53-69 | one `reduce` step appends to the accumulator exactly the field's group-filtered candidates, in `orderByPref` order, and nothing for an empty field |
| `VCardProperties.Extract` | src/helpers/vCardProperties.js:51-71 | the loop that pushes onto the accumulator returns exactly the left fold over the fields |
| `VCardProperties.ExtractSpecAppend` | src/helpers/vCardProperties.js:52-70 | extracting `f1 + f2` is extracting `f1` followed by extracting `f2` |
| `VCardProperties.ExtractFieldByField` | src/helpers/vCardProperties.js:52-70 | field `i`'s output is one contiguous block, after every earlier field's and before every later field's |
| `VCardProperties.ExtractSkipsEmptyField` | src/helpers/vCardProperties.js:53-57 | a missing field, an empty property, or an array with one empty element contributes nothing: removing it from the fields changes nothing |
| `VCardProperties.ExtractMembership` | src/helpers/vCardProperties.js:55-68 | a property is in the output iff it passes the group filter and some requested, non-empty field holds it |
| `VCardProperties.ExtractNeverEmpty` | src/helpers/vCardProperties.js:55-68 | no returned property is empty, and every returned property passes the group filter |
| `VCardProperties.ExtractWithoutGroup` | src/helpers/vCardProperties.js:59-68 | with no group asked for, the output is exactly each non-empty single field's property and each non-empty array's `orderByPref` permutation, field after field |
| `VCardProperties.ExtractAll` | src/helpers/vCardProperties.js:78-88 | every property of every key of the card is in the result, at least as often as its key holds it, and every result property comes from some key |
| `VCardProperties.FlattenCovers` | src/helpers/vCardProperties.js:79-87 | the `concat` fold over keys holds each listed key's properties and nothing else |
| `VCardProperties.FlattenAppend` | src/helpers/vCardProperties.js:79-87 | the `concat` fold over two key lists is the fold over each, concatenated |
| `VCardProperties.ExtractAllFieldByField` | src/helpers/vCardProperties.js:78-88 | `extractAll` holds each key's properties, unfiltered and in their own order, as one block in document key order |
| `VCardProperties.ExtractAllLength` | src/helpers/vCardProperties.js:78-88 | the length of `extractAll` is the sum of the per-key counts (a single value counts 1) |
| `VCardProperties.ExtractWithinExtractAll` | src/helpers/vCardProperties.js:51-88 | extracting every field of the card yields a sub-multiset of `extractAll` |
| `VCardProperties.UniqKey` | src/helpers/vCardProperties.js:33-42 | the key ends with the property's value, and is the value itself when the type is absent or empty |
| `VCardProperties.SameKindKeys` | src/helpers/vCardProperties.js:33-42 | two properties of the same type have the same key iff they have the same value |
| `VCardProperties.UniqBy` | src/helpers/vCardProperties.js:33-42 | dropping repeated keys never lengthens the list |
| `VCardProperties.UniqBySpec` | src/helpers/vCardProperties.js:33-42 | with a set of keys already seen, the result is a subsequence, its keys are the input's new keys, each once, each on the first input property carrying it |
| `VCardProperties.MakeUniq` | src/helpers/vCardProperties.js:32-42 | the result is no longer than the input; the default `[]` gives `[]` |
| `VCardProperties.MakeUniqSpec` | src/helpers/vCardProperties.js:32-42 | the result is an order-preserving subsequence, no two elements share a key, every input key appears, and each element is the first input property with its key |
| `VCardProperties.UniqByKeepsDistinct` | src/helpers/vCardProperties.js:33-42 | a list whose keys are distinct and unseen comes back unchanged |
| `VCardProperties.MakeUniqIdempotent` | src/helpers/vCardProperties.js:32-42 | `makeUniq(makeUniq(xs)) == makeUniq(xs)` |
| `VCardProperties.UntypedValueCollidesWithTyped` | src/helpers/vCardProperties.js:37-41 | an untyped "a b" and type "a" with value "b" share a key, so only the first is kept |
| `AddressKeysView.FindAddress` | src/app/address/directives/addressKeysView.js:379 | the address found is the first one whose `addressID` equals the clicked id; `undefined` only when none does |
| `AddressKeysView.LookupAddress` | src/app/address/directives/addressKeysView.js:379 | no `data-address-id` gives `null`, an empty one `""`, an unknown one `undefined`, never `false`; a found address is in the list and has the clicked id |
| `AddressKeysView.LookupKey` | src/app/address/directives/addressKeysView.js:380 | a missing address passes its falsy value on; a found key is one of the address's keys; a missing `data-key-index` gives `undefined` (or `false` when there are no keys), a non-numeric one `false` |
| `AddressKeysView.IndexStringRoundTrip` | src/app/address/directives/addressKeysView.js:380 | a rendered key position is a canonical array index that converts back to that position |
| `AddressKeysView.LookupKeyBounds` | src/app/address/directives/addressKeysView.js:380 | the key is `keys[i]` when `i < keys.length`, and `false` otherwise |
| `AddressKeysView.ActionTableByName` | src/app/address/directives/addressKeysView.js:359-370 | the `ACTIONS` table maps each of the ten handler names to its handler and holds nothing else |
| `AddressKeysView.HandlersThatThrow` | src/app/address/directives/addressKeysView.js:328 | only `downloadPublic` (line 91), `exportKey` (line 113) and `reactivateKey` throw when called; the first two iff the address or the key is `null`/`undefined`, `reactivateKey` iff the address is; never on two found objects |
| `AddressKeysView.ClickDelegate` | src/app/address/directives/addressKeysView.js:372-389 | nothing happens unless the target is a BUTTON with an action; past that, a handler is called exactly once iff the name is in `ACTIONS`, with the table's entry and the looked-up address and key (or the falsy values the lookups stopped at); the call comes first and is followed by exactly one effect: a TypeError when the handler throws, otherwise the dropdown closing; an unknown name only closes the dropdown |
| `AddressKeysView.ClickGate` | src/app/address/directives/addressKeysView.js:373-377 | a click has any effect iff it lands on a BUTTON whose `data-action` is present and non-empty |
| `AddressKeysView.ClickOnRenderedKey` | src/app/address/directives/addressKeysView.js:372-389 | a click on the button rendered for key `k` of an address calls the handler with that address and key, then closes the dropdown |
| `AddressKeysView.ValidMarker` | src/app/address/directives/addressKeysView.js:198-202 | the flags are the 32-bit `|` of `ENABLE_VERIFICATION` and `ENABLE_ENCRYPTION`, a signed 32-bit value, with "Encryption enabled" both ways |
| `AddressKeysView.ToInt32RoundTrip` | src/app/address/directives/addressKeysView.js:199 | the signed 32-bit result of `|` converts back to the same 32 bits |
| `AddressKeysView.MarkerMessage` | src/app/address/directives/addressKeysView.js:170 | the message is one of the marker's two, and, when they differ, the upgrade one iff the old `Flags < flags` |
| `AddressKeysView.RunMarker` | src/app/address/directives/addressKeysView.js:162-172 | a marker builds the signed key list in mode `mark` with `newFlags`, then sends the same flags as `Flags` to the key API, then refreshes, then shows its message, each step only after the one before resolved |
| `AddressKeysView.MarkerMessageChoice` | src/app/address/directives/addressKeysView.js:170 | the upgrade message is shown iff the old `Flags < flags` numerically, the downgrade message iff not |
| `AddressKeysView.MarkObsoleteMessages` | src/app/address/directives/addressKeysView.js:178-182 | `markObsolete` sets the verification flag and says "Signature verification enabled" going up, "Encryption disabled" otherwise |
| `AddressKeysView.MarkersIgnoringOldFlags` | src/app/address/directives/addressKeysView.js:188-202 | `markCompromised` and `markValid` behave the same whatever the old flags and always show their one message |
| `AddressKeysView.MarkValidScenario` | src/app/address/directives/addressKeysView.js:198-202 | clicking "markValid" on key 0 of address "a1" sets `ENABLE_VERIFICATION \| ENABLE_ENCRYPTION` and reports "Encryption enabled" |
| `AddressKeysView.RunMakePrimary` | src/app/address/directives/addressKeysView.js:143-153 | the private key is decrypted first, then the signed key list is built in set-primary mode for this key, then the key is set primary, then the view refreshes, and only then is "Primary key changed" shown; each step waits for the one before; no flags are sent |
| `AddressKeysView.KeyFilename` | src/app/address/directives/addressKeysView.js:86 | the email can be read back out of `type + 'key.' + email + extension` |
| `AddressKeysView.KeyFilenameInjective` | src/app/address/directives/addressKeysView.js:86 | different emails give different file names |
| `AddressKeysView.DownloadPublicKey` | src/app/address/directives/addressKeysView.js:91 | `downloadPublic` saves the public key under a `public` file name for the address's email |
| `AddressKeysView.ExportDialogFor` | src/app/address/directives/addressKeysView.js:114-128 | the public/private choice is offered iff the key is decrypted; otherwise only the public download is confirmed |
| `AddressKeysView.ExportKeyDownload` | src/app/address/directives/addressKeysView.js:93-141 | dismissing downloads nothing; answering public saves the public key as `publickey.<email>`; answering private saves the re-authenticated armored key as `privatekey.<email>` iff the key is decrypted, and nothing otherwise |
| `KeyImport.JoinEnds` | src/app/address/directives/addressKeysView.js:230-232 | the payload is empty for no files, and otherwise starts with the first file's text and ends with the last's |
| `KeyImport.JoinAppend` | src/app/address/directives/addressKeysView.js:230-232 | the payload of two lists of files is each payload joined by one newline, in file order |
| `KeyImport.JoinLength` | src/app/address/directives/addressKeysView.js:230-232 | the payload holds every file's text plus one separator between each two |
| `KeyImport.ImportNotice` | src/app/address/directives/addressKeysView.js:235-251 | no notification for a count of 0; the plural "imported" message when a target address was set; "Private key reactivated" otherwise |
| `KeyImport.ImportKeyForm.ClearFile` | src/app/address/directives/addressKeysView.js:226 | assigning `''` empties the file input and touches no other input |
| `KeyImport.ImportKeyForm.PrepareImport` | src/app/address/directives/addressKeysView.js:293-296 | confirming an import targets the chosen address's email and no key |
| `KeyImport.ImportKeyForm.PrepareReactivation` | src/app/address/directives/addressKeysView.js:346-349 | the reactivation import clears the address input and stores the key's ID; for a key passed as `false` or `""` it stores the text "undefined"; for `null` or `undefined` it throws, after clearing the address, and leaves the key input unchanged |
| `KeyImport.ImportKeyForm.Change` | src/app/address/directives/addressKeysView.js:224-263 | no file selected: input cleared and nothing imported; otherwise the files joined by newlines are sent with the two hidden values, the notice follows the count, errors are rethrown, and the file input is reset in every case |
| `KeyImport.ImportTwoFilesScenario` | src/app/address/directives/addressKeysView.js:224-263 | importing files "A" and "B" for an address sends "A\nB" with its email and shows the plural message |
| `KeyImport.ReactivationOfMissingKey` | src/app/address/directives/addressKeysView.js:346-349 | a reactivation import for a key that was looked up as `false` sends the key ID "undefined" |
| `KeyImport.ReactivationScenario` | src/app/address/directives/addressKeysView.js:224-263 | a reactivation import with a non-zero count sends the joined files with the key's ID and shows "Private key reactivated" |

## Left out

- `orderByPref` lives in a module that is not part of this model. It is a parameter, assumed only to permute its input. Its preference order is not modelled.
- The vcf library's `Property` is reduced to type, value, group and its `isEmpty()` answer. An array element that is not a property (such as `undefined`) is not modelled.
- The default arguments of `extract` (`new vCard()`, `[]`, `{}`) are not modelled separately. An empty document, an empty field list and `None` for the group stand for them.
- Modals are not modelled: confirm, export, private export, select address, reactivate and generate. A user's answer is a parameter (`ExportAnswer`, the email passed to `PrepareImport`). `newKey` and the password submission of `reactivateKey` are left out with them, since they only open modals and hand the answer to collaborators.
- Key decryption, `unlockUser`, `authentication` and the internals of `keysModel.signedKeyList` are foreign calls. They appear only as steps, and their success is part of `resolved`.
- The HTTP calls are not modelled: `Key.primary`, `Key.flags`, `importPrivateKey.importKey`, `reactivateKeys.process`, `eventManager.call` and `networkActivityTracker.track`. They become steps or parameters (`reply`, `readOk`). `deleteKeyProcess.start` is not part of this model; it is assumed not to throw when called.
- `Blob`, `downloadFile`, `readFileAsString`, `querySelector`, `classList` and the `click()` that opens the file picker are DOM or browser calls and are not modelled. Listener registration and teardown (`onEvent`, `unsubscribe`, `$destroy`) are left out for the same reason.
- `DownloadPublicKey`, `ExportKeyDownload`, `RunMarker` and `RunMakePrimary` take a found address and key only. What these handlers do when `clickDelegate` passes them `false` or `""` is not modelled: every field they read is then `undefined`. With key `false`, `downloadPublic` would save the text "undefined" as `publickey.<email>...` for a found address. With address `""` as well, the file would be `publickey.undefined...`. A marker would send `keyID: undefined` and, since `undefined < flags` is false, show its downgrade message.
- Translation and plural forms are not modelled; messages are tags of `Message`.
- `LengthExceeds`: JavaScript's `Number()` conversion of a `data-key-index` string is modelled only for digit strings. Other strings (signs, spaces, exponents, hexadecimal) are treated as NaN.
- `ActionTable`: names inherited from `Object.prototype` (such as `toString`) are not looked up. Only the table's own ten names are.
- `ImportKeyForm.Change`: the whole promise chain runs as one call. Another action that changed the hidden inputs while a file read or an import was pending is not modelled.
- The `reactivateKeyModal.deactivate()` call in `importKeyChange` is a modal call and is not modelled.

=== FILE: address_keys_view.dfy ===
/** The decision logic of the address keys view: which key action a click
    dispatches and with which address and key, what each marker sends to
    the signed key list builder and the key API and which message it shows,
    and which file a key export downloads. Modals, cryptography and HTTP are
    collaborators; their answers are parameters. */
module AddressKeysView {
  import opened Common

  /** A key of an address, as the view receives it. */
  datatype Key = Key(id: string, privateKey: string, publicKey: string, flags: int, decrypted: bool)

  /** An address with its keys, in the order the view lists them. */
  datatype Address = Address(addressID: string, email: string, keys: seq<Key>)

  // ------------------------------------------------------------ lookups

  /** The falsy JavaScript values the lookups of `clickDelegate` can yield in
      place of an object. They differ in one respect that matters: `null`
      and `undefined` cannot be destructured, `false` and `""` can. */
  datatype Falsy = Null | Undefined | False | EmptyString

  /** The outcome of a lookup: the object found, or the falsy value the
      `&&` chain stopped at. */
  datatype Lookup<T> = Found(value: T) | Missing(falsy: Falsy)

  /** `addresses.find(({ addressID }) => addressID === id)`: the first
      address with that identifier, or `undefined`. */
  function FindAddress(addresses: seq<Address>, id: string): (r: Lookup<Address>)
    ensures r.Missing? ==> r.falsy == Undefined && forall i :: 0 <= i < |addresses| ==> addresses[i].addressID != id
    ensures r.Found? ==> exists i :: 0 <= i < |addresses| && addresses[i] == r.value && r.value.addressID == id
                                     && forall j :: 0 <= j < i ==> addresses[j].addressID != id
  {
    if addresses == [] then Missing(Undefined)
    else if addresses[0].addressID == id then Found(addresses[0])
    else
      var r := FindAddress(addresses[1..], id);
      assert r.Found? ==> exists i :: 0 < i < |addresses| && addresses[i] == r.value && r.value.addressID == id
                                      && forall j :: 0 <= j < i ==> addresses[j].addressID != id
      by {
        if r.Found? {
          var i :| 0 <= i < |addresses[1..]| && addresses[1..][i] == r.value
                   && forall j :: 0 <= j < i ==> addresses[1..][j].addressID != id;
          assert addresses[i + 1] == r.value;
          assert forall j :: 0 <= j < i + 1 ==> addresses[j].addressID != id by {
            forall j | 0 <= j < i + 1 ensures addresses[j].addressID != id {
              if j > 0 {
                assert addresses[j] == addresses[1..][j - 1];
              }
            }
          }
        }
      }
      r
  }

  /** `addressId && scope.addresses.find(...)`: a missing `data-address-id`
      attribute defaults to `null`, an empty one is `""`. */
  function LookupAddress(addresses: seq<Address>, addressId: Option<string>): (r: Lookup<Address>)
    ensures r == Missing(Null) <==> addressId == None
    ensures r == Missing(EmptyString) <==> addressId == Some("")
    ensures r == Missing(Undefined) <==>
      addressId.Some? && addressId.value != "" && forall i :: 0 <= i < |addresses| ==> addresses[i].addressID != addressId.value
    ensures r.Missing? ==> r.falsy != False
    ensures r.Found? ==> addressId == Some(r.value.addressID) && r.value in addresses
  {
    match addressId
    case None => Missing(Null)
    case Some(id) => if id == "" then Missing(EmptyString) else FindAddress(addresses, id)
  }

  /** A string made of decimal digits only (the empty string included). */
  predicate IsDigits(s: string)
  {
    forall i :: 0 <= i < |s| ==> '0' <= s[i] <= '9'
  }

  /** The number a string of decimal digits converts to; `Number("")` is 0. */
  function DigitsValue(s: string): nat
    requires IsDigits(s)
  {
    if s == [] then 0 else 10 * DigitsValue(s[..|s| - 1]) + (s[|s| - 1] as int - '0' as int)
  }

  /** A string that names an array element: decimal digits, no leading zero. */
  predicate IsCanonicalIndex(s: string)
  {
    IsDigits(s) && s != "" && (s[0] != '0' || |s| == 1)
  }

  /** `keys.length > keyIndex`: a missing `data-key-index` defaults to
      `null`, which compares as 0; a digit string compares as its number. */
  predicate LengthExceeds(length: nat, keyIndex: Option<string>)
  {
    match keyIndex
    case None => length > 0
    case Some(s) => IsDigits(s) && length > DigitsValue(s)
  }

  /** `address && address.keys.length > keyIndex && address.keys[keyIndex]`.
      Indexing with `null` or with a digit string that is not canonical
      (such as "01" or "") reads a property that arrays do not have. */
  function LookupKey(address: Lookup<Address>, keyIndex: Option<string>): (r: Lookup<Key>)
    ensures address.Missing? ==> r == Missing(address.falsy)
    ensures r.Found? ==> address.Found? && r.value in address.value.keys
    ensures address.Found? && keyIndex == None ==>
      r == if address.value.keys == [] then Missing(False) else Missing(Undefined)
    ensures address.Found? && keyIndex.Some? && !IsDigits(keyIndex.value) ==> r == Missing(False)
  {
    match address
    case Missing(f) => Missing(f)
    case Found(a) =>
      if !LengthExceeds(|a.keys|, keyIndex) then Missing(False)
      else if keyIndex.Some? && IsCanonicalIndex(keyIndex.value) then Found(a.keys[DigitsValue(keyIndex.value)])
      else Missing(Undefined)
  }

  /** The decimal digit `d`. */
  function Digit(d: nat): char
    requires d < 10
  {
    ('0' as int + d) as char
  }

  /** A key's position written as a plain decimal number, which is how this
      model assumes the view's template fills `data-key-index` (the template
      is not part of this model). */
  function IndexString(n: nat): string
  {
    if n < 10 then [Digit(n)] else IndexString(n / 10) + [Digit(n % 10)]
  }

  /** Rendering a position and reading it back gives the position. */
  lemma {:induction false} IndexStringRoundTrip(n: nat)
    ensures IsCanonicalIndex(IndexString(n)) && DigitsValue(IndexString(n)) == n
  {
    if n >= 10 {
      IndexStringRoundTrip(n / 10);
      var s := IndexString(n);
      var h := IndexString(n / 10);
      assert s == h + [Digit(n % 10)];
      assert s[..|s| - 1] == h;
      assert s[0] == h[0];
    }
  }

  /** The key is found exactly when the address is found and the index
      names one of its keys; an index at or past the end yields `false`. */
  lemma LookupKeyBounds(address: Address, i: nat)
    ensures i < |address.keys| ==> LookupKey(Found(address), Some(IndexString(i))) == Found(address.keys[i])
    ensures i >= |address.keys| ==> LookupKey(Found(address), Some(IndexString(i))) == Missing(False)
  {
    IndexStringRoundTrip(i);
  }

  // ------------------------------------------------------- clickDelegate

  /** The handlers of the `ACTIONS` table. */
  datatype Action =
    | DownloadPublic | NewKey | ImportKey | ReactivateKey | ExportKey
    | MakePrimaryKey | DeleteKey | MarkObsolete | MarkCompromised | MarkValid

  /** The `ACTIONS` table, by `data-action` name. */
  const ActionTable: map<string, Action> := map[
    "downloadPublic" := DownloadPublic,
    "newKey" := NewKey,
    "importKey" := ImportKey,
    "reactivateKey" := ReactivateKey,
    "exportKey" := ExportKey,
    "makePrimaryKey" := MakePrimaryKey,
    "deleteKey" := DeleteKey,
    "markObsolete" := MarkObsolete,
    "markCompromised" := MarkCompromised,
    "markValid" := MarkValid
  ]

  /** The `data-action` name of a handler. */
  function ActionName(a: Action): string
  {
    match a
    case DownloadPublic => "downloadPublic"
    case NewKey => "newKey"
    case ImportKey => "importKey"
    case ReactivateKey => "reactivateKey"
    case ExportKey => "exportKey"
    case MakePrimaryKey => "makePrimaryKey"
    case DeleteKey => "deleteKey"
    case MarkObsolete => "markObsolete"
    case MarkCompromised => "markCompromised"
    case MarkValid => "markValid"
  }

  /** Every handler is in the table under its name, and the table holds
      nothing else. */
  lemma ActionTableByName()
    ensures forall a :: ActionName(a) in ActionTable && ActionTable[ActionName(a)] == a
    ensures forall name :: name in ActionTable ==> ActionName(ActionTable[name]) == name
  {
  }

  /** The element a click landed on: its `nodeName` and the `data-action`,
      `data-address-id` and `data-key-index` attributes it carries. */
  datatype Target = Target(nodeName: string, action: Option<string>, addressId: Option<string>, keyIndex: Option<string>)

  /** What a click does, in order: call a handler, have the call throw, or
      close the dropdown. */
  datatype Effect =
    | Invoke(action: Action, address: Lookup<Address>, key: Lookup<Key>)
    | TypeErrorThrown
    | CloseDropdown

  /** The gate of `clickDelegate`: a button with a non-empty action. */
  predicate PassesGate(t: Target)
  {
    t.nodeName == "BUTTON" && t.action.Some? && t.action.value != ""
  }

  /** `({ field }) => ...` can bind its argument. */
  predicate Destructurable<T>(v: Lookup<T>)
  {
    !(v.Missing? && (v.falsy == Null || v.falsy == Undefined))
  }

  /** The synchronous handlers destructure their parameters when called and
      throw a TypeError on `null` or `undefined`: `downloadPublic` and
      `exportKey` destructure both the address and the key, `reactivateKey`
      only the address (it takes the key as a plain `key`). The asynchronous
      ones (the markers and `makePrimaryKey`) reject their promise instead,
      `deleteKey` is not part of this model, and `newKey` and `importKey`
      ignore their arguments. */
  predicate ThrowsOnCall(action: Action, address: Lookup<Address>, key: Lookup<Key>)
  {
    match action
    case DownloadPublic => !Destructurable(address) || !Destructurable(key)
    case ExportKey => !Destructurable(address) || !Destructurable(key)
    case ReactivateKey => !Destructurable(address)
    case _ => false
  }

  /** Which calls throw: only the three synchronous handlers, never on two
      found objects, and `reactivateKey` whatever the key is. */
  lemma HandlersThatThrow(action: Action, address: Lookup<Address>, key: Lookup<Key>)
    ensures ThrowsOnCall(action, address, key) ==>
      action == DownloadPublic || action == ExportKey || action == ReactivateKey
    ensures address.Found? && key.Found? ==> !ThrowsOnCall(action, address, key)
    ensures ThrowsOnCall(DownloadPublic, address, key) <==>
      address == Missing(Null) || address == Missing(Undefined) || key == Missing(Null) || key == Missing(Undefined)
    ensures ThrowsOnCall(ExportKey, address, key) == ThrowsOnCall(DownloadPublic, address, key)
    ensures ThrowsOnCall(ReactivateKey, address, key) <==> address == Missing(Null) || address == Missing(Undefined)
  {
  }

  /** The click passes the gate, names a handler, and that handler throws
      before `clickDelegate` reaches the dropdown. */
  predicate ClickThrows(addresses: seq<Address>, target: Target)
  {
    && PassesGate(target)
    && target.action.value in ActionTable
    && var address := LookupAddress(addresses, target.addressId);
       ThrowsOnCall(ActionTable[target.action.value], address, LookupKey(address, target.keyIndex))
  }

  function Invocations(effects: seq<Effect>): nat
  {
    if effects == [] then 0 else (if effects[0].Invoke? then 1 else 0) + Invocations(effects[1..])
  }

  function Closings(effects: seq<Effect>): nat
  {
    if effects == [] then 0 else (if effects[0].CloseDropdown? then 1 else 0) + Closings(effects[1..])
  }

  /** `clickDelegate`. */
  function ClickDelegate(addresses: seq<Address>, target: Target): (effects: seq<Effect>)
    ensures !PassesGate(target) ==> effects == []
    ensures Invocations(effects) == if PassesGate(target) && target.action.value in ActionTable then 1 else 0
    ensures Closings(effects) == if PassesGate(target) && !ClickThrows(addresses, target) then 1 else 0
    ensures PassesGate(target) && target.action.value !in ActionTable ==> effects == [CloseDropdown]
    ensures PassesGate(target) && target.action.value in ActionTable ==>
      && |effects| == 2 && effects[0].Invoke?
      && effects[1] == (if ClickThrows(addresses, target) then TypeErrorThrown else CloseDropdown)
    ensures forall e :: e in effects && e.Invoke? ==>
      && PassesGate(target) && target.action.value in ActionTable
      && e.action == ActionTable[target.action.value]
      && e.address == LookupAddress(addresses, target.addressId)
      && e.key == LookupKey(e.address, target.keyIndex)
  {
    if !PassesGate(target) then []
    else
      var name := target.action.value;
      var address := LookupAddress(addresses, target.addressId);
      var key := LookupKey(address, target.keyIndex);
      if name !in ActionTable then [CloseDropdown]
      else
        var call := Invoke(ActionTable[name], address, key);
        assert Invocations([call]) == 1;
        if ThrowsOnCall(ActionTable[name], address, key) then
          assert Invocations([call, TypeErrorThrown]) == 1 + Invocations([TypeErrorThrown]);
          [call, TypeErrorThrown]
        else
          assert Closings([call, CloseDropdown]) == Closings([CloseDropdown]);
          assert Invocations([call, CloseDropdown]) == 1 + Invocations([CloseDropdown]);
          [call, CloseDropdown]
  }

  /** The gate: a click does something exactly when it lands on a BUTTON
      whose `data-action` is present and not empty. */
  lemma ClickGate(addresses: seq<Address>, target: Target)
    ensures ClickDelegate(addresses, target) != [] <==>
      target.nodeName == "BUTTON" && target.action.Some? && target.action.value != ""
  {
  }

  /** A click on the button the view renders for key `k` of the `i`-th
      address (with no earlier address sharing its identifier) calls the
      handler with that address and that key, then closes the dropdown. */
  lemma ClickOnRenderedKey(addresses: seq<Address>, i: nat, k: nat, action: Action)
    requires i < |addresses| && k < |addresses[i].keys| && addresses[i].addressID != ""
    requires forall j :: 0 <= j < i ==> addresses[j].addressID != addresses[i].addressID
    ensures ClickDelegate(addresses, Target("BUTTON", Some(ActionName(action)), Some(addresses[i].addressID), Some(IndexString(k))))
         == [Invoke(action, Found(addresses[i]), Found(addresses[i].keys[k])), CloseDropdown]
  {
    var id := addresses[i].addressID;
    var r := FindAddress(addresses, id);
    if r.Found? {
      var i' :| 0 <= i' < |addresses| && addresses[i'] == r.value && r.value.addressID == id
                && forall j :: 0 <= j < i' ==> addresses[j].addressID != id;
      assert i' == i;
    }
    IndexStringRoundTrip(k);
    ActionTableByName();
  }

  // -------------------------------------------------------------- markers

  /** The `KEY_FLAGS` constants; their values are not part of this model. */
  datatype KeyFlags = KeyFlags(enableVerification: int, enableEncryption: int, disabled: int)

  /** JavaScript's ToUint32: the integer modulo 2^32. */
  function ToUint32(x: int): bv32
  {
    (x % 0x1_0000_0000) as bv32
  }

  /** JavaScript's reading of 32 bits as a signed integer. */
  function ToInt32(b: bv32): int
  {
    if b < 0x8000_0000 then b as int else b as int - 0x1_0000_0000
  }

  lemma Uint32OfNat(b: bv32)
    ensures (b as int) as bv32 == b
  {
  }

  lemma WrapBy32Bits(n: int)
    requires 0 <= n < 0x1_0000_0000
    ensures n % 0x1_0000_0000 == n && (n - 0x1_0000_0000) % 0x1_0000_0000 == n
  {
  }

  /** Reading 32 bits as a signed integer and converting back gives the
      same bits. */
  lemma ToInt32RoundTrip(b: bv32)
    ensures -0x8000_0000 <= ToInt32(b) < 0x8000_0000
    ensures ToUint32(ToInt32(b)) == b
  {
    var n := b as int;
    var i := ToInt32(b);
    assert i == n || i == n - 0x1_0000_0000;
    WrapBy32Bits(n);
    assert i % 0x1_0000_0000 == n;
    Uint32OfNat(b);
  }

  /** JavaScript's `a | b` on integers. */
  function BitOr(a: int, b: int): int
  {
    ToInt32(ToUint32(a) | ToUint32(b))
  }

  /** The success messages of the view. */
  datatype Message =
    | PrimaryKeyChanged
    | EncryptionDisabled
    | SignatureVerificationEnabled
    | EncryptionAndVerificationDisabled
    | EncryptionEnabled
    | PrivateKeysImported(count: int)
    | PrivateKeyReactivated

  /** What `createMarker(flags, messageUp, messageDown)` closes over. */
  datatype Marker = Marker(flags: int, messageUp: Message, messageDown: Message)

  /** `markObsolete`: verification only. */
  function ObsoleteMarker(f: KeyFlags): Marker
  {
    Marker(f.enableVerification, SignatureVerificationEnabled, EncryptionDisabled)
  }

  /** `markCompromised`: disabled, one message both ways. */
  function CompromisedMarker(f: KeyFlags): Marker
  {
    Marker(f.disabled, EncryptionAndVerificationDisabled, EncryptionAndVerificationDisabled)
  }

  /** `markValid`: verification and encryption, one message both ways. */
  function ValidMarker(f: KeyFlags): (m: Marker)
    ensures -0x8000_0000 <= m.flags < 0x8000_0000
    ensures ToUint32(m.flags) == ToUint32(f.enableVerification) | ToUint32(f.enableEncryption)
    ensures m.messageUp == m.messageDown == EncryptionEnabled
  {
    ToInt32RoundTrip(ToUint32(f.enableVerification) | ToUint32(f.enableEncryption));
    Marker(BitOr(f.enableVerification, f.enableEncryption), EncryptionEnabled, EncryptionEnabled)
  }

  /** The mode of a signed key list request. */
  datatype ListMode = SetPrimaryMode | MarkMode

  /** A call a key action makes on a collaborator, or the message it shows. */
  datatype Step =
    | DecryptPrivateKey(armored: string)
    | BuildSignedKeyList(addressID: string, mode: ListMode, keyID: string, newFlags: Option<int>)
    | SetPrimary(keyID: string)
    | SetFlags(keyID: string, flags: int)
    | Refresh
    | Notify(message: Message)

  /** An asynchronous chain: each step is issued once every collaborator call
      before it has resolved. `resolved` counts the calls that resolve before
      the first rejection. A rejection of the first awaited calls (decryption,
      the signed key list) rejects the handler's own promise, which
      `clickDelegate` ignores; only the chain from the key API call onwards
      is handed to the activity tracker. */
  function Chain(steps: seq<Step>, resolved: nat): seq<Step>
  {
    steps[..Min(resolved + 1, |steps|)]
  }

  /** The message a marker shows: the upgrade message when the key's old
      flags are numerically below the new ones, else the downgrade one. */
  function MarkerMessage(m: Marker, key: Key): (msg: Message)
    ensures msg == m.messageUp || msg == m.messageDown
    ensures m.messageUp != m.messageDown ==> (msg == m.messageUp <==> key.flags < m.flags)
  {
    if key.flags < m.flags then m.messageUp else m.messageDown
  }

  /** The handler `createMarker` returns, applied to an address and a key. */
  function RunMarker(m: Marker, address: Address, key: Key, resolved: nat): (steps: seq<Step>)
    ensures |steps| == Min(resolved + 1, 4)
    ensures steps[0] == BuildSignedKeyList(address.addressID, MarkMode, key.id, Some(m.flags))
    ensures resolved >= 1 ==> steps[1] == SetFlags(key.id, m.flags)
    ensures resolved >= 2 ==> steps[2] == Refresh
    ensures resolved >= 3 ==> steps[3] == Notify(MarkerMessage(m, key))
    ensures forall s :: s in steps && s.BuildSignedKeyList? ==> s == BuildSignedKeyList(address.addressID, MarkMode, key.id, Some(m.flags))
    ensures forall s :: s in steps && s.SetFlags? ==> s == SetFlags(key.id, m.flags)
    ensures forall s :: s in steps && s.Notify? ==> resolved >= 3 && s.message == MarkerMessage(m, key)
    ensures resolved >= 3 ==> Notify(MarkerMessage(m, key)) in steps
  {
    var all := [BuildSignedKeyList(address.addressID, MarkMode, key.id, Some(m.flags)),
                SetFlags(key.id, m.flags),
                Refresh,
                Notify(MarkerMessage(m, key))];
    assert resolved >= 3 ==> Chain(all, resolved) == all;
    assert resolved < 3 ==> Chain(all, resolved) == all[..resolved + 1];
    Chain(all, resolved)
  }

  /** A marker shows its upgrade message exactly when the key's old flags
      are numerically below the marker's flags, and its downgrade message
      exactly when they are not, once the whole chain has resolved. */
  lemma MarkerMessageChoice(m: Marker, address: Address, key: Key, resolved: nat)
    requires m.messageUp != m.messageDown
    ensures Notify(m.messageUp) in RunMarker(m, address, key, resolved) <==> resolved >= 3 && key.flags < m.flags
    ensures Notify(m.messageDown) in RunMarker(m, address, key, resolved) <==> resolved >= 3 && key.flags >= m.flags
  {
  }

  /** `markObsolete` sets the verification flag and reports "Signature
      verification enabled" on the way up, "Encryption disabled" otherwise. */
  lemma MarkObsoleteMessages(f: KeyFlags, address: Address, key: Key)
    ensures SetFlags(key.id, f.enableVerification) in RunMarker(ObsoleteMarker(f), address, key, 3)
    ensures key.flags < f.enableVerification ==>
      Notify(SignatureVerificationEnabled) in RunMarker(ObsoleteMarker(f), address, key, 3)
    ensures key.flags >= f.enableVerification ==>
      Notify(EncryptionDisabled) in RunMarker(ObsoleteMarker(f), address, key, 3)
  {
    MarkerMessageChoice(ObsoleteMarker(f), address, key, 3);
  }

  /** `markCompromised` and `markValid` do the same whatever the key's old
      flags were: their two messages are one. */
  lemma MarkersIgnoringOldFlags(f: KeyFlags, address: Address, key: Key, oldFlags: int, resolved: nat)
    ensures RunMarker(CompromisedMarker(f), address, key, resolved)
         == RunMarker(CompromisedMarker(f), address, key.(flags := oldFlags), resolved)
    ensures RunMarker(ValidMarker(f), address, key, resolved)
         == RunMarker(ValidMarker(f), address, key.(flags := oldFlags), resolved)
    ensures resolved >= 3 ==> Notify(EncryptionAndVerificationDisabled) in RunMarker(CompromisedMarker(f), address, key, resolved)
    ensures resolved >= 3 ==> Notify(EncryptionEnabled) in RunMarker(ValidMarker(f), address, key, resolved)
  {
  }

  /** A click on "mark valid" for the only key of address "a1" marks it with
      `ENABLE_VERIFICATION | ENABLE_ENCRYPTION` and reports "Encryption
      enabled". */
  lemma MarkValidScenario(f: KeyFlags, email: string, key: Key)
    ensures var address := Address("a1", email, [key]);
      && ClickDelegate([address], Target("BUTTON", Some("markValid"), Some("a1"), Some("0")))
         == [Invoke(MarkValid, Found(address), Found(key)), CloseDropdown]
      && var flags := BitOr(f.enableVerification, f.enableEncryption);
         RunMarker(ValidMarker(f), address, key, 3)
         == [BuildSignedKeyList("a1", MarkMode, key.id, Some(flags)), SetFlags(key.id, flags), Refresh, Notify(EncryptionEnabled)]
  {
    var address := Address("a1", email, [key]);
    assert IndexString(0) == "0";
    ClickOnRenderedKey([address], 0, 0, MarkValid);
  }

  // ------------------------------------------------------- makePrimaryKey

  /** `makePrimaryKey`: decrypt the private key with the mailbox password,
      build a signed key list in set-primary mode, set the key primary,
      refresh, and report "Primary key changed". */
  function RunMakePrimary(address: Address, key: Key, resolved: nat): (steps: seq<Step>)
    ensures |steps| == Min(resolved + 1, 5)
    ensures steps[0] == DecryptPrivateKey(key.privateKey)
    ensures resolved >= 1 ==> steps[1] == BuildSignedKeyList(address.addressID, SetPrimaryMode, key.id, None)
    ensures resolved >= 2 ==> steps[2] == SetPrimary(key.id)
    ensures resolved >= 3 ==> steps[3] == Refresh
    ensures resolved >= 4 ==> steps[4] == Notify(PrimaryKeyChanged)
    ensures SetPrimary(key.id) in steps <==> resolved >= 2
    ensures Notify(PrimaryKeyChanged) in steps <==> resolved >= 4
    ensures forall s :: s in steps ==> !s.SetFlags?
  {
    var all := [DecryptPrivateKey(key.privateKey),
                BuildSignedKeyList(address.addressID, SetPrimaryMode, key.id, None),
                SetPrimary(key.id),
                Refresh,
                Notify(PrimaryKeyChanged)];
    var steps := Chain(all, resolved);
    assert steps == all[..Min(resolved + 1, 5)];
    assert resolved >= 2 ==> steps[2] == SetPrimary(key.id);
    assert resolved >= 4 ==> steps[4] == Notify(PrimaryKeyChanged);
    steps
  }

  // ------------------------------------------------------ download / export

  /** A file the view hands to `downloadFile`. */
  datatype FileDownload = FileDownload(content: string, filename: string)

  /** Reads the email back out of a key file name of the given kind. */
  function EmailOfKeyFilename(kind: string, extension: string, filename: string): Option<string>
  {
    var prefix := kind + "key.";
    if |prefix| + |extension| <= |filename|
       && filename[..|prefix|] == prefix
       && filename[|filename| - |extension|..] == extension
    then Some(filename[|prefix|..|filename| - |extension|])
    else None
  }

  /** `type + 'key.' + email + KEY_FILE_EXTENSION`: a name from which the
      email can be read back. */
  function KeyFilename(kind: string, email: string, extension: string): (name: string)
    ensures EmailOfKeyFilename(kind, extension, name) == Some(email)
  {
    var prefix := kind + "key.";
    var name := prefix + email + extension;
    assert name[..|prefix|] == prefix;
    assert name[|name| - |extension|..] == extension;
    assert name[|prefix|..|name| - |extension|] == email;
    name
  }

  /** Two addresses with different emails never download to the same name. */
  lemma KeyFilenameInjective(kind: string, e1: string, e2: string, extension: string)
    requires KeyFilename(kind, e1, extension) == KeyFilename(kind, e2, extension)
    ensures e1 == e2
  {
  }

  /** `downloadPublic`: the public key, under "publickey.<email><extension>". */
  function DownloadPublicKey(address: Address, key: Key, extension: string): (d: FileDownload)
    ensures d.content == key.publicKey
    ensures EmailOfKeyFilename("public", extension, d.filename) == Some(address.email)
  {
    FileDownload(key.publicKey, KeyFilename("public", address.email, extension))
  }

  /** The dialog `exportKey` opens. */
  datatype ExportDialog = PublicOnlyConfirm | PublicOrPrivateChoice

  function ExportDialogFor(key: Key): (dialog: ExportDialog)
    ensures dialog == PublicOrPrivateChoice <==> key.decrypted
  {
    if !key.decrypted then PublicOnlyConfirm else PublicOrPrivateChoice
  }

  /** The user's answer to that dialog: dismiss it, download the public key,
      or export the private key, which the private key export modal hands
      back as `armored` after the user re-authenticates. */
  datatype ExportAnswer = Dismiss | ExportPublic | ExportPrivate(armored: string)

  /** `exportKey`: the download, if any, that the answer leads to. An
      undecrypted key's dialog only offers the public key, so a private
      export cannot come from it. */
  function ExportKeyDownload(address: Address, key: Key, answer: ExportAnswer, extension: string): (d: Option<FileDownload>)
    ensures answer.Dismiss? ==> d.None?
    ensures ExportDialogFor(key) == PublicOnlyConfirm ==> d.None? || d == Some(DownloadPublicKey(address, key, extension))
    ensures d.Some? && d != Some(DownloadPublicKey(address, key, extension)) ==>
      && ExportDialogFor(key) == PublicOrPrivateChoice
      && answer.ExportPrivate?
      && d.value.content == answer.armored
      && EmailOfKeyFilename("private", extension, d.value.filename) == Some(address.email)
    ensures answer.ExportPublic? ==> d == Some(DownloadPublicKey(address, key, extension))
    ensures answer.ExportPrivate? ==> (d.Some? <==> key.decrypted)
    ensures answer.ExportPrivate? && key.decrypted ==>
      d == Some(FileDownload(answer.armored, KeyFilename("private", address.email, extension)))
  {
    match answer
    case Dismiss => None
    case ExportPublic => Some(DownloadPublicKey(address, key, extension))
    case ExportPrivate(armored) =>
      if key.decrypted then
        Some(FileDownload(armored, KeyFilename("private", address.email, extension)))
      else None
  }
}

=== FILE: common.dfy ===
/** Value wrappers shared by the model's modules. */
module Common {

  /** A value that may be absent: JavaScript's `undefined` (or a missing
      attribute) is `None`, anything else is `Some`. */
  datatype Option<+T> = None | Some(value: T)

  /** The smaller of two naturals. */
  function Min(a: nat, b: nat): nat
  {
    if a <= b then a else b
  }
}

=== FILE: key_import.dfy ===
/** Private key import from files: the three hidden inputs of the address
    keys view (target address, key identifier, file picker), how the import
    and reactivation dialogs fill them, and what a change of the file
    picker sends, shows and resets. */
module KeyImport {
  import opened Common
  import opened AddressKeysView

  /** `parts.join(separator)`. */
  function Join(parts: seq<string>, separator: string): string
  {
    if parts == [] then ""
    else if |parts| == 1 then parts[0]
    else Join(parts[..|parts| - 1], separator) + separator + parts[|parts| - 1]
  }

  /** The joined text is empty for no parts, and otherwise starts with the
      first part and ends with the last. */
  lemma {:induction false} JoinEnds(parts: seq<string>, separator: string)
    ensures parts == [] ==> Join(parts, separator) == ""
    ensures parts != [] ==> var joined := Join(parts, separator);
      && |parts[0]| <= |joined| && joined[..|parts[0]|] == parts[0]
      && |parts[|parts| - 1]| <= |joined| && joined[|joined| - |parts[|parts| - 1]|..] == parts[|parts| - 1]
  {
    if |parts| > 1 {
      var init := parts[..|parts| - 1];
      JoinEnds(init, separator);
      assert init[0] == parts[0];
      var head := Join(init, separator);
      var joined := head + separator + parts[|parts| - 1];
      assert joined[..|parts[0]|] == head[..|parts[0]|];
    }
  }

  /** The total length of the parts. */
  function TotalLength(parts: seq<string>): nat
  {
    if parts == [] then 0 else |parts[0]| + TotalLength(parts[1..])
  }

  /** Joining two non-empty lists is joining each and putting one separator
      between them: the files keep their order. */
  lemma {:induction false} JoinAppend(a: seq<string>, b: seq<string>, separator: string)
    requires a != [] && b != []
    ensures Join(a + b, separator) == Join(a, separator) + separator + Join(b, separator)
    decreases |b|
  {
    var ab := a + b;
    if |b| == 1 {
      assert ab[..|ab| - 1] == a;
    } else {
      var init := b[..|b| - 1];
      assert ab[..|ab| - 1] == a + init;
      JoinAppend(a, init, separator);
    }
  }

  /** The joined text holds every file and one separator between each two. */
  lemma {:induction false} JoinLength(parts: seq<string>, separator: string)
    requires parts != []
    ensures |Join(parts, separator)| == TotalLength(parts) + (|parts| - 1) * |separator|
  {
    if |parts| > 1 {
      var rest := parts[1..];
      assert parts == [parts[0]] + rest;
      JoinAppend([parts[0]], rest, separator);
      JoinLength(rest, separator);
      assert (|parts| - 1) * |separator| == (|rest| - 1) * |separator| + |separator|;
    }
  }

  /** The notification after an import: none when nothing was imported,
      the plural "imported" message when a target address was chosen,
      "Private key reactivated" otherwise. */
  function ImportNotice(count: int, addressValue: string): (notice: Option<Message>)
    ensures notice.None? <==> count == 0
    ensures notice == Some(PrivateKeysImported(count)) <==> count != 0 && addressValue != ""
    ensures notice == Some(PrivateKeyReactivated) <==> count != 0 && addressValue == ""
  {
    if count == 0 then None
    else if addressValue != "" then Some(PrivateKeysImported(count))
    else Some(PrivateKeyReactivated)
  }

  /** The arguments of `importPrivateKey.importKey`. */
  datatype ImportRequest = ImportRequest(payload: string, address: string, keyId: string)

  /** What a change of the file picker leads to: nothing when no file is
      selected; otherwise the request sent (none when a file could not be
      read), the notification shown, and whether the error is rethrown. */
  datatype ImportOutcome =
    | NoFileSelected
    | Attempted(request: Option<ImportRequest>, notice: Option<Message>, rethrown: bool)

  /** The three inputs `link` finds in the view's element. */
  class ImportKeyForm {
    /** `.import-private-key-address`: the email of the target address, or "". */
    var addressValue: string
    /** `.import-private-key-id`: the key to reactivate, or "". */
    var keyIdValue: string
    /** `.import-private-key-file`: its `value` and the text of its `files`. */
    var fileValue: string
    var files: seq<string>

    constructor ()
      ensures addressValue == "" && keyIdValue == "" && fileValue == "" && files == []
    {
      addressValue, keyIdValue, fileValue, files := "", "", "", [];
    }

    /** `importKey`, once an address is chosen and the warning confirmed:
        target that address's email, no key, and open the file picker. */
    method PrepareImport(email: string)
      modifies this
      ensures addressValue == email && keyIdValue == ""
      ensures fileValue == old(fileValue) && files == old(files)
    {
      addressValue := email;
      keyIdValue := "";
    }

    /** The import branch of `reactivateKey`: no address, then the key's
        ID, then open the file picker. `key` is what `clickDelegate` passed
        on, which may be a falsy value: `false.ID` and `"".ID` are
        `undefined`, which the input stores as the text "undefined", while
        reading `ID` of `null` or `undefined` throws after the address input
        was already cleared, so the key input keeps its value and the file
        picker does not open. */
    method PrepareReactivation(key: Lookup<Key>) returns (threw: bool)
      modifies this
      ensures addressValue == ""
      ensures threw <==> key == Missing(Null) || key == Missing(Undefined)
      ensures key.Found? ==> keyIdValue == key.value.id
      ensures key == Missing(False) || key == Missing(EmptyString) ==> keyIdValue == "undefined"
      ensures threw ==> keyIdValue == old(keyIdValue)
      ensures fileValue == old(fileValue) && files == old(files)
    {
      addressValue := "";
      match key
      case Found(k) =>
        keyIdValue := k.id;
        threw := false;
      case Missing(f) =>
        if f == Null || f == Undefined {
          threw := true;
        } else {
          keyIdValue := "undefined";
          threw := false;
        }
    }

    /** The user picks files in the browser's dialog. */
    method Select(path: string, contents: seq<string>)
      modifies this
      ensures fileValue == path && files == contents
      ensures addressValue == old(addressValue) && keyIdValue == old(keyIdValue)
    {
      fileValue, files := path, contents;
    }

    /** Setting a file input's value to "" empties its selection. */
    method ClearFile()
      modifies this
      ensures fileValue == "" && files == []
      ensures addressValue == old(addressValue) && keyIdValue == old(keyIdValue)
    {
      fileValue, files := "", [];
    }

    /** `importKeyChange`. `readOk` says whether every file could be read;
        `reply` is the count `importKey` resolved to, or `None` when it or
        the refresh after it rejected. Whatever happens, the file input is
        reset. */
    method Change(readOk: bool, reply: Option<int>) returns (outcome: ImportOutcome)
      modifies this
      ensures fileValue == "" && files == []
      ensures addressValue == old(addressValue) && keyIdValue == old(keyIdValue)
      ensures old(files) == [] <==> outcome == NoFileSelected
      ensures outcome.Attempted? ==>
        && (outcome.request.Some? <==> readOk)
        && (readOk ==> outcome.request.value == ImportRequest(Join(old(files), "\n"), addressValue, keyIdValue))
        && outcome.notice == (if readOk && reply.Some? then ImportNotice(reply.value, addressValue) else None)
        && outcome.rethrown == (!readOk || reply.None?)
    {
      if |files| == 0 {
        ClearFile();
        return NoFileSelected;
      }
      var request: Option<ImportRequest> := None;
      var notice: Option<Message> := None;
      var rethrown := true;
      if readOk {
        request := Some(ImportRequest(Join(files, "\n"), addressValue, keyIdValue));
        if reply.Some? {
          notice := ImportNotice(reply.value, addressValue);
          rethrown := false;
        }
      }
      ClearFile();
      outcome := Attempted(request, notice, rethrown);
    }
  }

  /** Importing two files "A" and "B" for an address sends "A\nB" for that
      address's email and reports the plural message. */
  method ImportTwoFilesScenario(email: string, count: int) returns (outcome: ImportOutcome)
    requires email != "" && count != 0
    ensures outcome == Attempted(Some(ImportRequest("A\nB", email, "")), Some(PrivateKeysImported(count)), false)
  {
    var form := new ImportKeyForm();
    form.PrepareImport(email);
    form.Select("keys", ["A", "B"]);
    assert Join(["A", "B"], "\n") == "A\nB" by {
      assert ["A", "B"][..1] == ["A"];
    }
    outcome := form.Change(true, Some(count));
  }

  /** The reactivation import of a key past the end of the list: the click
      passes `false` for the key, and the import then sends the key ID
      "undefined". */
  method ReactivationOfMissingKey(contents: seq<string>, count: int) returns (outcome: ImportOutcome)
    requires contents != []
    ensures outcome.Attempted? && outcome.request == Some(ImportRequest(Join(contents, "\n"), "", "undefined"))
  {
    var form := new ImportKeyForm();
    var threw := form.PrepareReactivation(Missing(False));
    form.Select("keys", contents);
    outcome := form.Change(true, Some(count));
  }

  /** A reactivation import whose count is not zero reports "Private key
      reactivated" after sending the joined files for that key. */
  method ReactivationScenario(key: Key, contents: seq<string>, count: int) returns (outcome: ImportOutcome)
    requires contents != [] && count != 0
    ensures outcome.Attempted? && outcome.notice == Some(PrivateKeyReactivated) && !outcome.rethrown
    ensures outcome.request == Some(ImportRequest(Join(contents, "\n"), "", key.id))
  {
    var form := new ImportKeyForm();
    var threw := form.PrepareReactivation(Found(key));
    form.Select("keys", contents);
    outcome := form.Change(true, Some(count));
  }
}

=== FILE: vcard_properties.dfy ===
/** The contact helpers that pick vCard properties out of a parsed card:
    the emptiness test, the group filter, `extract`, `extractAll` and the
    order-preserving deduplication `makeUniq`. */
module VCardProperties {
  import opened Common

  /** A parsed vCard property as the helpers read it: `getType()` (`kind`,
      since `type` is a Dafny keyword), `valueOf()`, `getGroup()` and
      `isEmpty()` of the vcf library's Property. */
  datatype Property = Property(kind: Option<string>, value: string, group: Option<string>, empty: bool)

  /** What `vcard.get(key)` yields for a present field: one property, or an
      array of them when the card repeats the field. */
  datatype FieldValue = Single(prop: Property) | Many(props: seq<Property>)

  /** A parsed card: its `data` object, and the order in which
      `Object.keys(vcard.data)` lists the keys. */
  datatype Document = Document(fieldOrder: seq<string>, data: map<string, FieldValue>) {
    /** The key order lists every key of `data`, each once, as a JavaScript
        object's own keys are. */
    predicate Valid()
    {
      && (forall i :: 0 <= i < |fieldOrder| ==> fieldOrder[i] in data)
      && (forall k :: k in data ==> k in fieldOrder)
      && (forall i, j :: 0 <= i < j < |fieldOrder| ==> fieldOrder[i] != fieldOrder[j])
    }
  }

  /** The type of `orderByPref`, which reorders an array of properties by
      preference; its definition is not part of this model. */
  type Reorder = seq<Property> -> seq<Property>

  /** What the model assumes of `orderByPref`: it only reorders. */
  ghost predicate IsPermutation(orderByPref: Reorder)
  {
    forall s :: multiset(orderByPref(s)) == multiset(s)
  }

  /** `vcard.get(key)`: `None` for a field the card does not have. */
  function Get(doc: Document, key: string): Option<FieldValue>
  {
    if key in doc.data then Some(doc.data[key]) else None
  }

  /** The properties of a field value, a single one wrapped in a list. */
  function AsList(v: FieldValue): seq<Property>
  {
    match v
    case Single(p) => [p]
    case Many(props) => props
  }

  // ---------------------------------------------------------------- isEmpty

  /** `props.filter(isEmpty).length`. */
  function CountEmpty(props: seq<Property>): nat
  {
    if props == [] then 0 else (if props[0].empty then 1 else 0) + CountEmpty(props[1..])
  }

  lemma {:induction false} CountEmptyPositive(props: seq<Property>)
    ensures CountEmpty(props) > 0 <==> exists i :: 0 <= i < |props| && props[i].empty
  {
    if props != [] {
      CountEmptyPositive(props[1..]);
      if exists i :: 0 <= i < |props| && props[i].empty {
        var i :| 0 <= i < |props| && props[i].empty;
        if i > 0 {
          assert props[1..][i - 1].empty;
        }
      }
      if exists i :: 0 <= i < |props[1..]| && props[1..][i].empty {
        var i :| 0 <= i < |props[1..]| && props[1..][i].empty;
        assert props[i + 1].empty;
      }
    }
  }

  /** `isEmpty`: a missing field is empty, a single property is empty when
      it says so, and an array is empty as soon as ONE of its elements is
      (the filtered length is truthy), not only when all of them are. */
  function IsEmpty(v: Option<FieldValue>): (empty: bool)
    ensures empty <==>
      || v == None
      || (v.Some? && v.value.Single? && v.value.prop.empty)
      || (v.Some? && v.value.Many? && exists i :: 0 <= i < |v.value.props| && v.value.props[i].empty)
  {
    match v
    case None => true
    case Some(Single(p)) => p.empty
    case Some(Many(props)) =>
      CountEmptyPositive(props);
      CountEmpty(props) > 0
  }

  // ------------------------------------------------------------ canPushProp

  /** `!group`: no group, or the empty string, was asked for. */
  predicate NoGroup(group: Option<string>)
  {
    group == None || group == Some("")
  }

  /** `canPushProp`: no group asked for, or the property's group is exactly
      the one asked for. */
  function CanPushProp(p: Property, group: Option<string>): (push: bool)
    ensures NoGroup(group) ==> push
    ensures !NoGroup(group) ==> (push <==> p.group.Some? && p.group.value == group.value)
  {
    NoGroup(group) || p.group == group
  }

  /** The properties of `s` that pass the group filter, in order. */
  function KeepGroup(s: seq<Property>, group: Option<string>): seq<Property>
  {
    if s == [] then []
    else KeepGroup(s[..|s| - 1], group) + (if CanPushProp(s[|s| - 1], group) then [s[|s| - 1]] else [])
  }

  lemma {:induction false} KeepGroupMembership(s: seq<Property>, group: Option<string>, p: Property)
    ensures p in KeepGroup(s, group) <==> p in s && CanPushProp(p, group)
  {
    if s != [] {
      KeepGroupMembership(s[..|s| - 1], group, p);
      assert s == s[..|s| - 1] + [s[|s| - 1]];
    }
  }

  lemma {:induction false} KeepGroupSubMultiset(s: seq<Property>, group: Option<string>)
    ensures multiset(KeepGroup(s, group)) <= multiset(s)
  {
    if s != [] {
      KeepGroupSubMultiset(s[..|s| - 1], group);
      assert s == s[..|s| - 1] + [s[|s| - 1]];
    }
  }

  lemma {:induction false} KeepGroupWithoutGroup(s: seq<Property>, group: Option<string>)
    requires NoGroup(group)
    ensures KeepGroup(s, group) == s
  {
    if s != [] {
      KeepGroupWithoutGroup(s[..|s| - 1], group);
      assert s == s[..|s| - 1] + [s[|s| - 1]];
    }
  }

  // ---------------------------------------------------------------- extract

  /** The properties a non-empty field offers, in the order `extract` visits
      them: the single property, or the array after `orderByPref`. */
  function Candidates(v: FieldValue, orderByPref: Reorder): seq<Property>
  {
    match v
    case Single(p) => [p]
    case Many(props) => orderByPref(props)
  }

  /** What one step of the `reduce` in `extract` appends for `key`. */
  function FieldOutput(doc: Document, key: string, group: Option<string>, orderByPref: Reorder): seq<Property>
  {
    var v := Get(doc, key);
    if IsEmpty(v) then [] else KeepGroup(Candidates(v.value, orderByPref), group)
  }

  /** The array `extract` returns: the `reduce` over `fields`, from the left. */
  function ExtractSpec(doc: Document, fields: seq<string>, group: Option<string>, orderByPref: Reorder): seq<Property>
  {
    if fields == [] then []
    else ExtractSpec(doc, fields[..|fields| - 1], group, orderByPref)
         + FieldOutput(doc, fields[|fields| - 1], group, orderByPref)
  }

  /** One step of the `reduce` in `extract`: push onto `acc` the properties
      of field `key` that pass the group filter, in `orderByPref` order. */
  method PushField(acc: seq<Property>, doc: Document, key: string, group: Option<string>, orderByPref: Reorder)
    returns (out: seq<Property>)
    ensures out == acc + FieldOutput(doc, key, group, orderByPref)
  {
    out := acc;
    var property := Get(doc, key);
    if IsEmpty(property) {
      return;
    }
    match property.value
    case Many(props) =>
      var ordered := orderByPref(props);
      var j := 0;
      while j < |ordered|
        invariant 0 <= j <= |ordered|
        invariant out == acc + KeepGroup(ordered[..j], group)
      {
        assert ordered[..j + 1][..j] == ordered[..j];
        if CanPushProp(ordered[j], group) {
          out := out + [ordered[j]];
        }
        j := j + 1;
      }
      assert ordered[..j] == ordered;
    case Single(p) =>
      assert KeepGroup([p], group) == if CanPushProp(p, group) then [p] else [];
      if CanPushProp(p, group) {
        out := out + [p];
      }
  }

  /** `extract`: push, field by field, the properties that pass the group
      filter onto an accumulator. */
  method Extract(doc: Document, fields: seq<string>, group: Option<string>, orderByPref: Reorder)
    returns (acc: seq<Property>)
    ensures acc == ExtractSpec(doc, fields, group, orderByPref)
  {
    acc := [];
    var i := 0;
    while i < |fields|
      invariant 0 <= i <= |fields|
      invariant acc == ExtractSpec(doc, fields[..i], group, orderByPref)
    {
      assert fields[..i + 1][..i] == fields[..i];
      acc := PushField(acc, doc, fields[i], group, orderByPref);
      i := i + 1;
    }
    assert fields[..i] == fields;
  }

  /** `extract` over two lists of fields is `extract` over each, one after
      the other. */
  lemma {:induction false} ExtractSpecAppend(doc: Document, f1: seq<string>, f2: seq<string>, group: Option<string>, orderByPref: Reorder)
    ensures ExtractSpec(doc, f1 + f2, group, orderByPref)
         == ExtractSpec(doc, f1, group, orderByPref) + ExtractSpec(doc, f2, group, orderByPref)
    decreases |f2|
  {
    if f2 == [] {
      assert f1 + f2 == f1;
    } else {
      var init := f2[..|f2| - 1];
      assert (f1 + f2)[..|f1 + f2| - 1] == f1 + init;
      assert (f1 + f2)[|f1 + f2| - 1] == f2[|f2| - 1];
      ExtractSpecAppend(doc, f1, init, group, orderByPref);
    }
  }

  /** `extract` over one field is that field's output. */
  lemma ExtractSpecSingle(doc: Document, key: string, group: Option<string>, orderByPref: Reorder)
    ensures ExtractSpec(doc, [key], group, orderByPref) == FieldOutput(doc, key, group, orderByPref)
  {
    assert [key][..0] == [];
  }

  /** The output is built field by field in the order of `fields`: the
      properties of field `i` form one contiguous block, after those of
      every earlier field and before those of every later one. */
  lemma ExtractFieldByField(doc: Document, fields: seq<string>, i: nat, group: Option<string>, orderByPref: Reorder)
    requires i < |fields|
    ensures ExtractSpec(doc, fields, group, orderByPref)
         == ExtractSpec(doc, fields[..i], group, orderByPref)
          + FieldOutput(doc, fields[i], group, orderByPref)
          + ExtractSpec(doc, fields[i + 1..], group, orderByPref)
  {
    assert fields == fields[..i] + [fields[i]] + fields[i + 1..];
    ExtractSpecAppend(doc, fields[..i] + [fields[i]], fields[i + 1..], group, orderByPref);
    ExtractSpecAppend(doc, fields[..i], [fields[i]], group, orderByPref);
    ExtractSpecSingle(doc, fields[i], group, orderByPref);
  }

  /** A missing field, an empty single property, or an array with at least
      one empty element contributes nothing: dropping it from `fields`
      leaves the output unchanged. */
  lemma ExtractSkipsEmptyField(doc: Document, before: seq<string>, key: string, after: seq<string>,
                               group: Option<string>, orderByPref: Reorder)
    requires key !in doc.data
          || (doc.data[key].Single? && doc.data[key].prop.empty)
          || (doc.data[key].Many? && exists i :: 0 <= i < |doc.data[key].props| && doc.data[key].props[i].empty)
    ensures ExtractSpec(doc, before + [key] + after, group, orderByPref)
         == ExtractSpec(doc, before + after, group, orderByPref)
  {
    ExtractSpecAppend(doc, before + [key], after, group, orderByPref);
    ExtractSpecAppend(doc, before, [key], group, orderByPref);
    ExtractSpecAppend(doc, before, after, group, orderByPref);
    ExtractSpecSingle(doc, key, group, orderByPref);
  }

  /** Field `key` is present, not empty, and has `p` among its properties. */
  predicate Offers(doc: Document, key: string, p: Property)
  {
    var v := Get(doc, key);
    !IsEmpty(v) && p in AsList(v.value)
  }

  lemma FieldOutputMembership(doc: Document, key: string, group: Option<string>, orderByPref: Reorder, p: Property)
    requires IsPermutation(orderByPref)
    ensures p in FieldOutput(doc, key, group, orderByPref) <==> CanPushProp(p, group) && Offers(doc, key, p)
  {
    var v := Get(doc, key);
    if !IsEmpty(v) {
      var c := Candidates(v.value, orderByPref);
      KeepGroupMembership(c, group, p);
      assert multiset(c) == multiset(AsList(v.value));
      assert p in c <==> p in multiset(c);
      assert p in AsList(v.value) <==> p in multiset(AsList(v.value));
    }
  }

  /** Some field of `fields` offers `p`. */
  predicate OfferedBy(doc: Document, fields: seq<string>, p: Property)
  {
    exists i :: 0 <= i < |fields| && Offers(doc, fields[i], p)
  }

  lemma OfferedBySnoc(doc: Document, fields: seq<string>, p: Property)
    requires fields != []
    ensures OfferedBy(doc, fields, p) <==>
      OfferedBy(doc, fields[..|fields| - 1], p) || Offers(doc, fields[|fields| - 1], p)
  {
    var init := fields[..|fields| - 1];
    if OfferedBy(doc, fields, p) {
      var i :| 0 <= i < |fields| && Offers(doc, fields[i], p);
      if i < |init| {
        assert init[i] == fields[i];
      }
    }
    if OfferedBy(doc, init, p) {
      var i :| 0 <= i < |init| && Offers(doc, init[i], p);
      assert fields[i] == init[i];
    }
  }

  /** Filter correctness, both ways: a property is in the output exactly when
      it passes the group filter and some requested, non-empty field has it. */
  lemma {:induction false} ExtractMembership(doc: Document, fields: seq<string>, group: Option<string>,
                                             orderByPref: Reorder, p: Property)
    requires IsPermutation(orderByPref)
    ensures p in ExtractSpec(doc, fields, group, orderByPref) <==>
      CanPushProp(p, group) && OfferedBy(doc, fields, p)
  {
    if fields != [] {
      ExtractMembership(doc, fields[..|fields| - 1], group, orderByPref, p);
      FieldOutputMembership(doc, fields[|fields| - 1], group, orderByPref, p);
      OfferedBySnoc(doc, fields, p);
    }
  }

  /** `extract` never returns an empty property, nor one from another group. */
  lemma ExtractNeverEmpty(doc: Document, fields: seq<string>, group: Option<string>, orderByPref: Reorder, p: Property)
    requires IsPermutation(orderByPref)
    requires p in ExtractSpec(doc, fields, group, orderByPref)
    ensures !p.empty && CanPushProp(p, group)
  {
    ExtractMembership(doc, fields, group, orderByPref, p);
    var i :| 0 <= i < |fields| && Offers(doc, fields[i], p);
    var v := Get(doc, fields[i]);
    if v.value.Many? {
      var j :| 0 <= j < |v.value.props| && v.value.props[j] == p;
    }
  }

  /** Reference for the ungrouped case: each non-empty field's properties,
      the single one or the `orderByPref` permutation of the array, one field
      after the other. */
  function AllCandidates(doc: Document, fields: seq<string>, orderByPref: Reorder): seq<Property>
  {
    if fields == [] then []
    else
      var v := Get(doc, fields[0]);
      (if IsEmpty(v) then [] else Candidates(v.value, orderByPref)) + AllCandidates(doc, fields[1..], orderByPref)
  }

  /** With no group asked for, `extract` returns exactly every candidate. */
  lemma {:induction false} ExtractWithoutGroup(doc: Document, fields: seq<string>, group: Option<string>, orderByPref: Reorder)
    requires NoGroup(group)
    ensures ExtractSpec(doc, fields, group, orderByPref) == AllCandidates(doc, fields, orderByPref)
  {
    if fields != [] {
      ExtractWithoutGroup(doc, fields[1..], group, orderByPref);
      assert fields == [fields[0]] + fields[1..];
      ExtractSpecAppend(doc, [fields[0]], fields[1..], group, orderByPref);
      ExtractSpecSingle(doc, fields[0], group, orderByPref);
      var v := Get(doc, fields[0]);
      if !IsEmpty(v) {
        KeepGroupWithoutGroup(Candidates(v.value, orderByPref), group);
      }
    }
  }

  // ------------------------------------------------------------- extractAll

  /** The `reduce` of `extractAll` over `keys`: each field's value, a single
      one as a one-element list, concatenated in key order. */
  function Flatten(doc: Document, keys: seq<string>): seq<Property>
    requires forall i :: 0 <= i < |keys| ==> keys[i] in doc.data
  {
    if keys == [] then []
    else Flatten(doc, keys[..|keys| - 1]) + AsList(doc.data[keys[|keys| - 1]])
  }

  /** The fold holds every property of every listed key, and nothing else. */
  lemma {:induction false} FlattenCovers(doc: Document, keys: seq<string>)
    requires forall i :: 0 <= i < |keys| ==> keys[i] in doc.data
    ensures forall i :: 0 <= i < |keys| ==> multiset(AsList(doc.data[keys[i]])) <= multiset(Flatten(doc, keys))
    ensures forall p :: p in Flatten(doc, keys) ==> exists i :: 0 <= i < |keys| && p in AsList(doc.data[keys[i]])
  {
    if keys != [] {
      var init := keys[..|keys| - 1];
      FlattenCovers(doc, init);
      assert forall i :: 0 <= i < |init| ==> init[i] == keys[i];
    }
  }

  /** `extractAll`: every property of the card, in document key order;
      nothing is dropped and nothing comes from outside the card. */
  function ExtractAll(doc: Document): (all: seq<Property>)
    requires doc.Valid()
    ensures forall k :: k in doc.data ==> multiset(AsList(doc.data[k])) <= multiset(all)
    ensures forall p :: p in all ==> exists k :: k in doc.data && p in AsList(doc.data[k])
  {
    FlattenCovers(doc, doc.fieldOrder);
    Flatten(doc, doc.fieldOrder)
  }

  lemma {:induction false} FlattenAppend(doc: Document, k1: seq<string>, k2: seq<string>)
    requires forall i :: 0 <= i < |k1| ==> k1[i] in doc.data
    requires forall i :: 0 <= i < |k2| ==> k2[i] in doc.data
    ensures forall i :: 0 <= i < |k1 + k2| ==> (k1 + k2)[i] in doc.data
    ensures Flatten(doc, k1 + k2) == Flatten(doc, k1) + Flatten(doc, k2)
    decreases |k2|
  {
    assert forall i :: 0 <= i < |k1 + k2| ==> (k1 + k2)[i] in doc.data by {
      forall i | 0 <= i < |k1 + k2| ensures (k1 + k2)[i] in doc.data {
        if i >= |k1| {
          assert (k1 + k2)[i] == k2[i - |k1|];
        }
      }
    }
    if k2 == [] {
      assert k1 + k2 == k1;
    } else {
      var init := k2[..|k2| - 1];
      assert (k1 + k2)[..|k1 + k2| - 1] == k1 + init;
      assert (k1 + k2)[|k1 + k2| - 1] == k2[|k2| - 1];
      FlattenAppend(doc, k1, init);
    }
  }

  /** `extractAll` neither filters nor reorders: the properties of the
      `i`-th key are one block, in their own order, between those of the
      earlier and those of the later keys. */
  lemma ExtractAllFieldByField(doc: Document, i: nat)
    requires doc.Valid() && i < |doc.fieldOrder|
    ensures var keys := doc.fieldOrder;
      ExtractAll(doc) == Flatten(doc, keys[..i]) + AsList(doc.data[keys[i]]) + Flatten(doc, keys[i + 1..])
  {
    var keys := doc.fieldOrder;
    assert keys == keys[..i] + [keys[i]] + keys[i + 1..];
    FlattenAppend(doc, keys[..i] + [keys[i]], keys[i + 1..]);
    FlattenAppend(doc, keys[..i], [keys[i]]);
    assert [keys[i]][..0] == [];
  }

  /** How many properties a field value holds. */
  function SizeOf(v: FieldValue): nat
  {
    match v
    case Single(_) => 1
    case Many(props) => |props|
  }

  /** The sum of the sizes of the fields `keys`. */
  function TotalSize(doc: Document, keys: seq<string>): nat
    requires forall i :: 0 <= i < |keys| ==> keys[i] in doc.data
  {
    if keys == [] then 0 else SizeOf(doc.data[keys[0]]) + TotalSize(doc, keys[1..])
  }

  lemma {:induction false} FlattenLength(doc: Document, keys: seq<string>)
    requires forall i :: 0 <= i < |keys| ==> keys[i] in doc.data
    ensures |Flatten(doc, keys)| == TotalSize(doc, keys)
  {
    if keys != [] {
      FlattenLength(doc, keys[1..]);
      assert keys == [keys[0]] + keys[1..];
      FlattenAppend(doc, [keys[0]], keys[1..]);
      assert [keys[0]][..0] == [];
    }
  }

  /** The length of `extractAll` is the sum of the per-key counts. */
  lemma ExtractAllLength(doc: Document)
    requires doc.Valid()
    ensures |ExtractAll(doc)| == TotalSize(doc, doc.fieldOrder)
  {
    FlattenLength(doc, doc.fieldOrder);
  }

  lemma {:induction false} ExtractWithinFlatten(doc: Document, keys: seq<string>, group: Option<string>, orderByPref: Reorder)
    requires IsPermutation(orderByPref)
    requires forall i :: 0 <= i < |keys| ==> keys[i] in doc.data
    ensures multiset(ExtractSpec(doc, keys, group, orderByPref)) <= multiset(Flatten(doc, keys))
  {
    if keys != [] {
      var key := keys[|keys| - 1];
      ExtractWithinFlatten(doc, keys[..|keys| - 1], group, orderByPref);
      var v := doc.data[key];
      assert Get(doc, key) == Some(v);
      if !IsEmpty(Get(doc, key)) {
        KeepGroupSubMultiset(Candidates(v, orderByPref), group);
        assert multiset(Candidates(v, orderByPref)) == multiset(AsList(v));
      }
    }
  }

  /** Asking `extract` for every field of the card yields no property, and
      no property more often, than `extractAll` does. */
  lemma ExtractWithinExtractAll(doc: Document, group: Option<string>, orderByPref: Reorder)
    requires doc.Valid() && IsPermutation(orderByPref)
    ensures multiset(ExtractSpec(doc, doc.fieldOrder, group, orderByPref)) <= multiset(ExtractAll(doc))
  {
    ExtractWithinFlatten(doc, doc.fieldOrder, group, orderByPref);
  }

  // --------------------------------------------------------------- makeUniq

  /** The key `makeUniq` compares: "type value" when the type is a non-empty
      string, the bare value otherwise. */
  function UniqKey(p: Property): (key: string)
    ensures |p.value| <= |key| && key[|key| - |p.value|..] == p.value
    ensures p.kind == None || p.kind == Some("") ==> key == p.value
  {
    match p.kind
    case Some(t) => if t != "" then t + " " + p.value else p.value
    case None => p.value
  }

  /** Between two properties of the same type, keys are equal exactly when
      values are: `makeUniq` deduplicates by value within one type. */
  lemma SameKindKeys(p: Property, q: Property)
    requires p.kind == q.kind
    ensures UniqKey(p) == UniqKey(q) <==> p.value == q.value
  {
    if UniqKey(p) == UniqKey(q) && p.kind.Some? && p.kind.value != "" {
      var prefix := p.kind.value + " ";
      assert UniqKey(p) == prefix + p.value && UniqKey(q) == prefix + q.value;
      assert p.value == UniqKey(p)[|prefix|..];
    }
  }

  /** The keys of the properties of `s`. */
  function KeysOf(s: seq<Property>): set<string>
  {
    if s == [] then {} else {UniqKey(s[0])} + KeysOf(s[1..])
  }

  /** No two properties of `s` share a key. */
  predicate DistinctKeys(s: seq<Property>)
  {
    forall i, j :: 0 <= i < j < |s| ==> UniqKey(s[i]) != UniqKey(s[j])
  }

  /** The first property of `s` with the given key. */
  function FirstWithKey(s: seq<Property>, key: string): Option<Property>
  {
    if s == [] then None
    else if UniqKey(s[0]) == key then Some(s[0])
    else FirstWithKey(s[1..], key)
  }

  /** `r` is `s` with some elements left out and the rest in order. */
  predicate IsSubsequence<T(==)>(r: seq<T>, s: seq<T>)
    decreases |s|
  {
    if r == [] then true
    else if s == [] then false
    else (r[0] == s[0] && IsSubsequence(r[1..], s[1..])) || IsSubsequence(r, s[1..])
  }

  /** `_.uniqBy` with the set of keys already seen: keep a property when its
      key is new, drop it otherwise. */
  function UniqBy(s: seq<Property>, seen: set<string>): (r: seq<Property>)
    ensures |r| <= |s|
  {
    if s == [] then []
    else if UniqKey(s[0]) in seen then UniqBy(s[1..], seen)
    else [s[0]] + UniqBy(s[1..], seen + {UniqKey(s[0])})
  }

  /** `makeUniq`; the default argument `[]` yields `[]`. */
  function MakeUniq(properties: seq<Property>): (r: seq<Property>)
    ensures |r| <= |properties|
    ensures properties == [] ==> r == []
  {
    UniqBy(properties, {})
  }

  lemma {:induction false} KeysOfIndex(s: seq<Property>, i: nat)
    requires i < |s|
    ensures UniqKey(s[i]) in KeysOf(s)
  {
    if i > 0 {
      KeysOfIndex(s[1..], i - 1);
    }
  }

  lemma {:induction false} KeysOfWitness(s: seq<Property>, key: string)
    requires key in KeysOf(s)
    ensures exists i :: 0 <= i < |s| && UniqKey(s[i]) == key
  {
    if UniqKey(s[0]) != key {
      KeysOfWitness(s[1..], key);
      var i :| 0 <= i < |s[1..]| && UniqKey(s[1..][i]) == key;
      assert UniqKey(s[i + 1]) == key;
    }
  }

  /** What `UniqBy` guarantees: an order-preserving subsequence whose keys
      are exactly the new keys of the input, each once, each carried by the
      first property of the input with that key. */
  lemma {:induction false} UniqBySpec(s: seq<Property>, seen: set<string>)
    ensures var r := UniqBy(s, seen);
      && IsSubsequence(r, s)
      && KeysOf(r) == KeysOf(s) - seen
      && DistinctKeys(r)
      && forall i :: 0 <= i < |r| ==> FirstWithKey(s, UniqKey(r[i])) == Some(r[i])
  {
    if s != [] {
      var k := UniqKey(s[0]);
      if k in seen {
        var r := UniqBy(s[1..], seen);
        UniqBySpec(s[1..], seen);
        forall i | 0 <= i < |r| ensures FirstWithKey(s, UniqKey(r[i])) == Some(r[i]) {
          KeysOfIndex(r, i);
        }
      } else {
        var rest := UniqBy(s[1..], seen + {k});
        var r := [s[0]] + rest;
        UniqBySpec(s[1..], seen + {k});
        assert r[1..] == rest;
        forall i, j | 0 <= i < j < |r| ensures UniqKey(r[i]) != UniqKey(r[j]) {
          KeysOfIndex(rest, j - 1);
        }
        forall i | 0 <= i < |r| ensures FirstWithKey(s, UniqKey(r[i])) == Some(r[i]) {
          if i > 0 {
            KeysOfIndex(rest, i - 1);
          }
        }
      }
    }
  }

  /** `makeUniq` keeps, in input order, the first property of each key: no
      key twice in the output, and no key of the input lost. */
  lemma MakeUniqSpec(properties: seq<Property>)
    ensures var r := MakeUniq(properties);
      && IsSubsequence(r, properties)
      && DistinctKeys(r)
      && KeysOf(r) == KeysOf(properties)
      && forall i :: 0 <= i < |r| ==> FirstWithKey(properties, UniqKey(r[i])) == Some(r[i])
  {
    UniqBySpec(properties, {});
  }

  lemma {:induction false} UniqByKeepsDistinct(s: seq<Property>, seen: set<string>)
    requires DistinctKeys(s) && KeysOf(s) !! seen
    ensures UniqBy(s, seen) == s
  {
    if s != [] {
      var k := UniqKey(s[0]);
      assert k !in KeysOf(s[1..]) by {
        if k in KeysOf(s[1..]) {
          KeysOfWitness(s[1..], k);
        }
      }
      UniqByKeepsDistinct(s[1..], seen + {k});
    }
  }

  /** `makeUniq` is idempotent. */
  lemma MakeUniqIdempotent(properties: seq<Property>)
    ensures MakeUniq(MakeUniq(properties)) == MakeUniq(properties)
  {
    UniqBySpec(properties, {});
    UniqByKeepsDistinct(MakeUniq(properties), {});
  }

  /** The key quirk: an untyped value "a b" and a property of type "a" with
      value "b" are duplicates of each other, so only the first is kept. */
  lemma UntypedValueCollidesWithTyped(untyped: Property, typed: Property)
    requires untyped.kind == None && untyped.value == "a b"
    requires typed.kind == Some("a") && typed.value == "b"
    ensures UniqKey(untyped) == UniqKey(typed)
    ensures MakeUniq([typed, untyped]) == [typed]
  {
    assert UniqKey(typed) == "a b" == UniqKey(untyped);
    assert [typed, untyped][1..] == [untyped];
    assert UniqBy([untyped], {"a b"}) == [] by {
      assert [untyped][1..] == [];
    }
    var s := [typed, untyped];
    assert s[0] == typed && UniqKey(s[0]) !in {};
    assert UniqBy(s, {}) == [typed] + UniqBy(s[1..], {} + {UniqKey(typed)});
    assert {} + {UniqKey(typed)} == {"a b"};
  }
}
